=== FILE: README.md ===
# URLBox roles and identity seeding, modelled in Dafny

URLBox is a bookmark dashboard in which access is organised by roles. This
project models its role handling:

- **System-role classification** (`AppRoles.IsSystemRole`). It is a
  case-insensitive membership test over the closed set
  {Administrator, Manager, Viewer}. It rejects null and blank names and does
  no trimming.
- **The administrator's role management** (`AdminController.CreateRole`,
  `AssignRole`, `RemoveRole`, and the dashboard's display-name fallback).
  Each action runs ordered guard checks. A failed guard redirects to the
  dashboard with a fixed status message and leaves the store unchanged. A
  passing run makes exactly one change.
- **Identity seeding at start-up** (`IdentitySeeder.SeedAsync`). It is a
  chain of "create if absent" steps: the default roles, the administrator
  account, its Administrator membership, the test role, the test project,
  and the project-to-role link.

ASP.NET Identity's `RoleManager`/`UserManager` and the project table are
abstracted to one immutable `IdentityStore.Store`:

- roles live in a map keyed by normalized name;
- users are a sequence with, for each user, the set of role keys they hold;
- projects are a sequence with, for each project, the role keys linked to it.

Identity's lookup normaliser is a parameter (`Normalizer`). A role's `Id` is
represented by its normalized-name key, which is unique per role. C# `null`
is `Optional.None`. Every framework call that can fail takes its outcome as
an input:

- the controller actions take an `IdentityResult`;
- the seeder takes `Failures`;
- the id of a newly created administrator account is a parameter.

Modules: `Optional` (nullable values, LINQ `FirstOrDefault`), `Text` (.NET
white space, `Trim`, ordinal ignore-case, `string.Join`), `AppRoles`,
`IdentityStore`, `AdminController`, `IdentitySeeder`.

## Model

| member | source | states |
|---|---|---|
| AppRoles.IsSystemRole | src/URLBox.Domain/Authorization/AppRoles.cs:19-27 | The result is true exactly when the name is non-null and equals "Administrator", "Manager" or "Viewer" ignoring case. Null, empty and white-space names are never system roles. |
| AppRoles.ContainsIgnoreCase | src/URLBox.Domain/Authorization/AppRoles.cs:22-27 | A lookup in a collection whose comparer is ordinal ignore-case. It succeeds exactly when some element equals the name ignoring case. |
| AppRoles.SystemRolesDistinct | src/URLBox.Domain/Authorization/AppRoles.cs:8-17 | `SystemRoles` has three entries, and they stay pairwise distinct even when case is ignored. |
| AppRoles.IsSystemRoleIgnoresCase | src/URLBox.Domain/Authorization/AppRoles.cs:25-27 | Two names that differ only in case are classified the same. |
| AppRoles.CaseVariantsAreSystemRoles | src/URLBox.Domain/Authorization/AppRoles.cs:25-27 | "administrator", "VIEWER" and "mAnAgEr" are system roles. |
| AppRoles.PaddedNamesAreNotSystemRoles | src/URLBox.Domain/Authorization/AppRoles.cs:21-22 | No trimming is done, so " Manager" and "Viewer\t" are not system roles. |
| AppRoles.ProjectTagsAreNotSystemRoles | src/URLBox.Domain/Authorization/AppRoles.cs:19-23 | "TestProjectRole", "Admin", null, "" and "   " are not system roles. |
| AppRoles.BlankIsNotSystemName | src/URLBox.Domain/Authorization/AppRoles.cs:21 | No blank name equals a reserved name ignoring case, so the blank-name guard never rejects a real system role. |
| Text.SameIgnoringCaseCorrect | src/URLBox.Domain/Authorization/AppRoles.cs:25-27 | The character-by-character comparison agrees with "same length, same characters after upper-case folding". |
| Text.EqualsIgnoreCaseEquivalence | src/URLBox.Domain/Authorization/AppRoles.cs:25-27 | Ignore-case equality is reflexive, symmetric and transitive, so a set built on it is well defined. |
| Text.Trim | src/URLBox.Presentation/Controllers/AdminController.cs:69 | The result neither starts nor ends with white space. It is the infix of the input between a white-space prefix and a white-space suffix. |
| Text.TrimBlank | src/URLBox.Presentation/Controllers/AdminController.cs:64-69 | Trimming leaves the empty string exactly when the input is blank. |
| Text.TrimIdempotent | src/URLBox.Presentation/Controllers/AdminController.cs:69 | Trimming a trimmed name changes nothing. |
| Text.FoldUpper | src/URLBox.Domain/Authorization/AppRoles.cs:25-27 | The per-character fold behind `OrdinalIgnoreCase`. Lower-case ASCII letters map to their capitals, and a result is an ASCII capital exactly when the input is an ASCII letter. Characters below U+00B5 that are not lower-case letters are unchanged. |
| Text.Join | src/URLBox.Presentation/Controllers/AdminController.cs:78 | `string.Join(" ", errors)`, which builds the error message here and at lines 109 and 135. No parts give "", and one part gives that part. Otherwise the first part is a prefix, and the length is the parts' total plus one separator between each pair of neighbours. |
| Text.JoinAppend | src/URLBox.Presentation/Controllers/AdminController.cs:78 | Joining one more part appends the separator and that part. With the one-part case, this pins every part in order with the separator between neighbours. |
| Text.IsWhiteSpace | src/URLBox.Domain/Authorization/AppRoles.cs:21 | `char.IsWhiteSpace`, the set `IsNullOrWhiteSpace` and `Trim` use: U+0009..U+000D, U+0085 and categories Zs, Zl and Zp. No ASCII letter or digit is white space. Space, tab, line feed and carriage return are white space, and nothing below U+0009 is. |
| Text.IsNullOrWhiteSpace | src/URLBox.Domain/Authorization/AppRoles.cs:21 | `string.IsNullOrWhiteSpace`, also at AdminController.cs:64. Null and "" are blank, and a string is blank exactly when trimming leaves nothing. |
| Text.EqualsIgnoreCase | src/URLBox.Domain/Authorization/AppRoles.cs:25-27 | `StringComparer.OrdinalIgnoreCase.Equals`. Every string equals itself, equal strings have the same length, and an ASCII capital matches only itself or its lower-case letter. |
| IdentityStore.RoleExists | src/URLBox.Presentation/Controllers/AdminController.cs:70 | `RoleExistsAsync`, also used at line 96 and IdentitySeeder.cs:36. In a well-formed store, a role is found exactly when some stored role name normalizes like the name asked for. |
| IdentityStore.IsInRole | src/URLBox.Presentation/Controllers/AdminController.cs:101 | `IsInRoleAsync`, also used at line 127 and IdentitySeeder.cs:72. The role is looked up first, so an unknown role is never held; this is why `RemoveRole` of an unknown role reports "not in role". For a user of a well-formed store, the answer is just whether the user's memberships hold the role's key. |
| IdentityStore.WithRole | src/URLBox.Presentation/Controllers/AdminController.cs:75 | The effect of a successful `RoleManager.CreateAsync`, also at IdentitySeeder.cs:38 and 92. The role then exists under its normalized key with the given name, no other role, user or project changes, and store validity is preserved. |
| IdentityStore.WithMemberships | src/URLBox.Presentation/Controllers/AdminController.cs:106 | The effect of a successful `AddToRoleAsync` or `RemoveFromRoleAsync` (line 132). That user's memberships become the given set, and the user keeps their id, name and e-mail. Every other user, the roles and the projects are unchanged. |
| AdminController.CreateRole | src/URLBox.Presentation/Controllers/AdminController.cs:62-84 | The checks run in order. A null or blank name gives "Role name cannot be empty.". A trimmed name that already exists gives "Role '…' already exists.". A failed creation gives the joined errors. Each of these leaves the store unchanged. On success, the trimmed name is added under its key, and no user and no project changes. Existing roles keep their names, and store validity is preserved. |
| AdminController.CreateRoleTrimsFirst | src/URLBox.Presentation/Controllers/AdminController.cs:69-75 | Creating " X " behaves exactly like creating "X", because the name is trimmed before both the existence check and the creation. |
| AdminController.CreateRoleNeverDuplicates | src/URLBox.Presentation/Controllers/AdminController.cs:70-75 | After a successful creation, creating the same name again reports "already exists" and changes nothing. |
| AdminController.AssignRole | src/URLBox.Presentation/Controllers/AdminController.cs:88-115 | The checks run in order: "User not found.", then "Role not found.", then "User already has role '…'.", then the joined Identity errors. Each of these leaves the store unchanged. On success, that role is added to that user's set and the store changes. Every other user, the role map and the projects are unchanged, and store validity is preserved. |
| AdminController.RemoveRole | src/URLBox.Presentation/Controllers/AdminController.cs:119-141 | The checks run in order: "User not found.", then "User is not in role '…'.", then the joined errors. There is no separate role-exists check. On success, exactly that membership is removed, and everything else is unchanged. |
| AdminController.AssignThenRemove | src/URLBox.Presentation/Controllers/AdminController.cs:106-140 | Removing a role that was just assigned restores the original store. |
| AdminController.RemoveThenAssign | src/URLBox.Presentation/Controllers/AdminController.cs:106-140 | Assigning a role that was just removed restores the original store. |
| AdminController.DisplayName | src/URLBox.Presentation/Controllers/AdminController.cs:52 | The dashboard shows UserName, else Email, else "(no name)". The result is non-empty whenever the stored name and e-mail are. |
| IdentityStore.FindUserById | src/URLBox.Presentation/Controllers/AdminController.cs:90 | A user is found exactly when one has that id, and the user found has it. |
| IdentityStore.FindUserByName | src/URLBox.Infrastructure/Seed/IdentitySeeder.cs:51 | The account found has a name that normalizes like the one asked for. If nothing is found, no account's name does. |
| IdentityStore.FindUserByNameIgnoresMemberships | src/URLBox.Infrastructure/Seed/IdentitySeeder.cs:51 | Changing a user's memberships does not change which account the lookup by name finds. |
| Optional.Option.GetOr | src/URLBox.Presentation/Controllers/AdminController.cs:52 | The `??` operator, also used at IdentitySeeder.cs:47-49 and 86-87. The result is the value when there is one, and the fallback only for null. |
| Optional.FirstIndex | src/URLBox.Infrastructure/Seed/IdentitySeeder.cs:106-108 | `FirstOrDefault` returns the first position that satisfies the predicate, or nothing exactly when no position does. |
| IdentitySeeder.Resolve | src/URLBox.Infrastructure/Seed/IdentitySeeder.cs:47-49 | Each configuration key that is unset falls back to its default: "admin", "admin@example.com" and "Admin123!". Lines 21-22 and 86-87 add "TestProjectRole" and "Test Project". |
| IdentitySeeder.EnsureRole | src/URLBox.Infrastructure/Seed/IdentitySeeder.cs:36-44 | An existing role leaves the store unchanged. Afterwards the role exists exactly when it existed before or its creation did not fail. The same step creates the test role at lines 89-102, with a failure input of its own. Only that key can be added, and existing roles keep their names. |
| IdentitySeeder.EnsureRoles | src/URLBox.Infrastructure/Seed/IdentitySeeder.cs:34-45 | Every listed role whose creation does not fail exists afterwards, and a failure does not stop the loop. When all the roles exist, nothing changes. Any new role is one of the listed names under its own key. |
| IdentitySeeder.EnsureAdminUser | src/URLBox.Infrastructure/Seed/IdentitySeeder.cs:51-70 | An account found by name is used as it is. Otherwise a failed creation stops the run. A successful creation appends one account with the configured name and e-mail and no roles, and the lookup by name then finds it. |
| IdentitySeeder.EnsureAdministrator | src/URLBox.Infrastructure/Seed/IdentitySeeder.cs:72-84 | The membership is added only if it is missing. The step throws (ending the run) exactly when the Administrator role does not exist, since `AddToRoleAsync` cannot find it. Otherwise nothing but that membership changes, and unless the assignment fails the account ends in the Administrator role. |
| IdentitySeeder.FindProject | src/URLBox.Infrastructure/Seed/IdentitySeeder.cs:106-108 | The first project with exactly that name, or nothing exactly when no project has it. |
| IdentitySeeder.EnsureTestProject | src/URLBox.Infrastructure/Seed/IdentitySeeder.cs:104-128 | Without the test role, nothing changes, and nothing changes when the test project already links it. With the test role, the test project then links it. A project with that name is created only if none exists. Only the first project with that name, as the lookup finds it, can gain the link; every other project is untouched, including a later one with the same name. Every project keeps its name and its earlier links. |
| IdentitySeeder.AddProjectIfMissing | src/URLBox.Infrastructure/Seed/IdentitySeeder.cs:106-114 | An existing project with that name leaves the store as it is. Otherwise one project with that name and no links is appended. Either way the lookup by name then finds one. |
| IdentitySeeder.LinkRole | src/URLBox.Infrastructure/Seed/IdentitySeeder.cs:121-124 | The link is appended after the existing ones, and only when missing. The project keeps its name, ends linking the role, gains no duplicate, and gains no link other than that role. |
| IdentitySeeder.LinkToProject | src/URLBox.Infrastructure/Seed/IdentitySeeder.cs:121-124 | Only the first project with that name can change, and only by `LinkRole`; a later project with the same name is untouched. The lookup by name finds the same project, which now links the role. Nothing changes when it already did. |
| IdentitySeeder.LinksOnlyLinks | src/URLBox.Infrastructure/Seed/IdentitySeeder.cs:121-124 | After the test-project step, every project's links are old links or the test role, and no link list gains a duplicate. |
| IdentitySeeder.Seed | src/URLBox.Infrastructure/Seed/IdentitySeeder.cs:24-129 | The store as the run leaves it, whether it completes, returns early or ends with the exception. Seeding only adds. Roles keep their names. Users keep their id, name, e-mail and memberships, and at most one account is added. Projects keep their names and their earlier links. |
| IdentitySeeder.SeedCreatesDefaultRoles | src/URLBox.Infrastructure/Seed/IdentitySeeder.cs:34-45 | After seeding, each default role whose creation does not fail exists, even if a later step stops the run. |
| IdentitySeeder.SeedStopsWithoutAdmin | src/URLBox.Infrastructure/Seed/IdentitySeeder.cs:61-67 | If the account is absent and cannot be created, the run ends after the roles step. Users and projects are untouched. |
| IdentitySeeder.SeedMakesAdministrator | src/URLBox.Infrastructure/Seed/IdentitySeeder.cs:72-84 | Unless account creation, the Administrator role's creation or the assignment fails, the account found by the configured name ends in the Administrator role. |
| IdentitySeeder.SeedLinksTestProject | src/URLBox.Infrastructure/Seed/IdentitySeeder.cs:89-128 | Without the test role at the end, projects are untouched. Suppose the run gets past the Administrator membership: the Administrator role exists after the roles step, and account creation does not fail. Then the test role exists unless its creation fails, and when it exists the test project exists and links it. |
| IdentitySeeder.SeedEndsWithoutAdministratorRole | src/URLBox.Infrastructure/Seed/IdentitySeeder.cs:72-74 | If the Administrator role is still missing after the roles step, the run ends at the assignment. No role beyond the roles step is created and no project changes. |
| IdentitySeeder.FailedAdministratorRoleLeavesNoTestProject | src/URLBox.Infrastructure/Seed/IdentitySeeder.cs:72-128 | On an empty store with default configuration, a failed creation of "Administrator" leaves no project and no "TestProjectRole". |
| IdentitySeeder.SeedEstablishesSeeded | src/URLBox.Infrastructure/Seed/IdentitySeeder.cs:24-129 | A run with no failures leaves all six ensured facts in place. |
| IdentitySeeder.SeededIsFixpoint | src/URLBox.Infrastructure/Seed/IdentitySeeder.cs:34-124 | On a store where everything is in place, a run with no failures changes nothing, because every step's guard finds its object present. |
| IdentitySeeder.SeedIdempotent | src/URLBox.Infrastructure/Seed/IdentitySeeder.cs:24-129 | When every creation succeeds, seeding twice gives the same store as seeding once. |
| IdentitySeeder.EnsureTestProjectPreservesValid | src/URLBox.Infrastructure/Seed/IdentitySeeder.cs:121-124 | The link is added only when absent, so no project's role list ever holds a role twice. |
| IdentitySeeder.SeedPreservesValid | src/URLBox.Infrastructure/Seed/IdentitySeeder.cs:24-129 | Given a fresh id for a new account, seeding keeps the store valid. Roles sit under their own key, user ids are unique, memberships and links refer to existing roles, and links have no duplicates. |

## Left out

- Identity's name normalisation is a parameter. Role and user-name lookups depend on it only through `norm(x) == norm(y)`.
- OrdinalIgnoreCase is modelled as a per-character simple upper-case fold for U+0000..U+00FF. Other characters fold to themselves in the model. For example, .NET treats U+03B1 and U+0391 (Greek alpha) as equal under OrdinalIgnoreCase, and the model does not.
- The role key stands in for the role's generated `Id`. Two roles with the same normalized name cannot coexist in Identity, so this loses nothing.
- A null `roleName` in `AssignRole`/`RemoveRole` is not modelled. The role lookup throws `ArgumentNullException` and no status message is produced. A null or empty `userId` finds no user and gives "User not found.". The model gives the same result for any id that no user has.
- The dashboard's ordering of users and roles is left out: users and role names are sorted by the database's `ORDER BY`, so SQL Server's collation decides, while each user's role list is sorted in memory by the culture-sensitive `OrderBy`. Building its view model is left out as well. Only the display-name fallback is modelled.
- The `[Authorize(Roles = "Administrator")]` gate, anti-forgery validation, logging, async/await and `SaveChangesAsync` are plumbing or framework behaviour.
- IdentitySeeder.Seed: a failed Administrator assignment is treated as having no effect. Identity stages the new user-role row before user validation fails. When the stores share the request's database context, the `SaveChangesAsync` at IdentitySeeder.cs:126 can still save that row, and the model does not follow this.
- IdentitySeeder.Seed: when `AddToRoleAsync` throws for a missing Administrator role, the model returns the store as the run left it. It does not carry the exception itself, which propagates to the caller.
- IdentitySeeder.FindProject: `p.Name == name` is an ordinal comparison in the model. The database collation that EF Core would apply is left out.
- IdentitySeeder.SeedIdempotent: proved only for runs in which every creation succeeds. Failures are inputs of each run, so a later run whose calls succeed completes what an earlier failed run left undone. Such a run does not reproduce the first run's store.
- The password only decides whether account creation succeeds. That outcome is the `Failures.adminCreation` input, and the hash is not stored.
- The view/manage access resolution over `IsPublic`, `CreatedByUserId` and project roles is not modelled. It is not implemented in the files this model follows (src/URLBox.Domain/Entities/Url.cs:21-25 only declares the fields).
- AccountController, the services and repositories, the migrations, Program.cs's second seeding routine and the legacy MyUrls app are left out. They are authentication, persistence or startup plumbing.

=== FILE: admin_controller.dfy ===
/**
 * The administrator's role-management actions. Each action runs its guard
 * checks in order; a failed guard redirects to the dashboard with a fixed
 * status message and leaves the store as it was, and a passing run makes
 * exactly one change. The outcome of the Identity call that performs the
 * change is an input.
 */
module AdminController {
  import opened Optional
  import opened Text
  import opened IdentityStore

  /** A redirect to the dashboard carrying a status message, with the store it leaves behind. */
  datatype Redirect = Redirect(statusMessage: string, store: Store)

  /** The message shown when an Identity call fails: its error descriptions joined by spaces. */
  function ErrorMessage(errors: seq<string>): string {
    Join(" ", errors)
  }

  function Quoted(name: string): string {
    "'" + name + "'"
  }

  /** Creates a role from the trimmed name unless it is blank or already exists. */
  function CreateRole(s: Store, norm: Normalizer, roleName: Option<string>, result: IdentityResult): (r: Redirect)
    ensures IsNullOrWhiteSpace(roleName) ==> r == Redirect("Role name cannot be empty.", s)
    ensures !IsNullOrWhiteSpace(roleName) && RoleExists(s, norm, Trim(roleName.value)) ==>
              r == Redirect("Role " + Quoted(Trim(roleName.value)) + " already exists.", s)
    ensures !IsNullOrWhiteSpace(roleName) && !RoleExists(s, norm, Trim(roleName.value)) ==>
              match result
              case Failed(errors) => r == Redirect(ErrorMessage(errors), s)
              case Succeeded =>
                && r.statusMessage == "Role " + Quoted(Trim(roleName.value)) + " created."
                && r.store.roles == s.roles[norm(Trim(roleName.value)) := Trim(roleName.value)]
    ensures r.store.users == s.users && r.store.projects == s.projects
    ensures r.store.roles.Keys >= s.roles.Keys
    ensures forall k :: k in s.roles ==> r.store.roles[k] == s.roles[k]
    ensures Valid(s, norm) ==> Valid(r.store, norm)
  {
    if IsNullOrWhiteSpace(roleName) then
      Redirect("Role name cannot be empty.", s)
    else
      var name := Trim(roleName.value);
      if RoleExists(s, norm, name) then
        Redirect("Role " + Quoted(name) + " already exists.", s)
      else
        match result
        case Failed(errors) => Redirect(ErrorMessage(errors), s)
        case Succeeded => Redirect("Role " + Quoted(name) + " created.", WithRole(s, norm, name))
  }

  /** Adds an existing role to an existing user who does not yet hold it. */
  function AssignRole(s: Store, norm: Normalizer, userId: string, roleName: string, result: IdentityResult): (r: Redirect)
    ensures !UserExists(s, userId) ==> r == Redirect("User not found.", s)
    ensures UserExists(s, userId) && !RoleExists(s, norm, roleName) ==> r == Redirect("Role not found.", s)
    ensures UserExists(s, userId) && RoleExists(s, norm, roleName) ==>
              var k := FindUserById(s, userId).value;
              if IsInRole(s, norm, s.users[k], roleName) then
                r == Redirect("User already has role " + Quoted(roleName) + ".", s)
              else match result
                case Failed(errors) => r == Redirect(ErrorMessage(errors), s)
                case Succeeded =>
                  && r.statusMessage == "Assigned " + Quoted(roleName) + " to " + s.users[k].userName.GetOr("") + "."
                  && r.store == WithMemberships(s, k, s.users[k].roles + {norm(roleName)})
                  && r.store != s
    ensures Valid(s, norm) ==> Valid(r.store, norm)
  {
    match FindUserById(s, userId)
    case None => Redirect("User not found.", s)
    case Some(k) =>
      var user := s.users[k];
      if !RoleExists(s, norm, roleName) then
        Redirect("Role not found.", s)
      else if IsInRole(s, norm, user, roleName) then
        Redirect("User already has role " + Quoted(roleName) + ".", s)
      else
        match result
        case Failed(errors) => Redirect(ErrorMessage(errors), s)
        case Succeeded =>
          var s' := WithMemberships(s, k, user.roles + {norm(roleName)});
          assert norm(roleName) in s'.users[k].roles;
          Redirect("Assigned " + Quoted(roleName) + " to " + user.userName.GetOr("") + ".", s')
  }

  /** Removes a membership the user holds; whether the role exists is not checked separately. */
  function RemoveRole(s: Store, norm: Normalizer, userId: string, roleName: string, result: IdentityResult): (r: Redirect)
    ensures !UserExists(s, userId) ==> r == Redirect("User not found.", s)
    ensures UserExists(s, userId) ==>
              var k := FindUserById(s, userId).value;
              if !IsInRole(s, norm, s.users[k], roleName) then
                r == Redirect("User is not in role " + Quoted(roleName) + ".", s)
              else match result
                case Failed(errors) => r == Redirect(ErrorMessage(errors), s)
                case Succeeded =>
                  && r.statusMessage == "Removed " + Quoted(roleName) + " from " + s.users[k].userName.GetOr("") + "."
                  && r.store == WithMemberships(s, k, s.users[k].roles - {norm(roleName)})
                  && r.store != s
    ensures Valid(s, norm) ==> Valid(r.store, norm)
  {
    match FindUserById(s, userId)
    case None => Redirect("User not found.", s)
    case Some(k) =>
      var user := s.users[k];
      if !IsInRole(s, norm, user, roleName) then
        Redirect("User is not in role " + Quoted(roleName) + ".", s)
      else
        match result
        case Failed(errors) => Redirect(ErrorMessage(errors), s)
        case Succeeded =>
          var s' := WithMemberships(s, k, user.roles - {norm(roleName)});
          assert norm(roleName) !in s'.users[k].roles;
          Redirect("Removed " + Quoted(roleName) + " from " + user.userName.GetOr("") + ".", s')
  }

  /** The name the dashboard shows for a user: the user name, else the e-mail, else "(no name)". */
  function DisplayName(u: User): (name: string)
    ensures u.userName.Some? ==> name == u.userName.value
    ensures u.userName.None? && u.email.Some? ==> name == u.email.value
    ensures u.userName.None? && u.email.None? ==> name == "(no name)"
    ensures (u.userName.Some? ==> u.userName.value != "") && (u.email.Some? ==> u.email.value != "") ==> name != ""
  {
    u.userName.GetOr(u.email.GetOr("(no name)"))
  }

  /** The name is trimmed before both the existence check and the creation. */
  lemma CreateRoleTrimsFirst(s: Store, norm: Normalizer, roleName: string, result: IdentityResult)
    ensures CreateRole(s, norm, Some(roleName), result) == CreateRole(s, norm, Some(Trim(roleName)), result)
  {
    TrimKeepsBlankness(roleName);
    TrimIdempotent(roleName);
  }

  /** Once a role was created, creating it again is refused and changes nothing. */
  lemma CreateRoleNeverDuplicates(s: Store, norm: Normalizer, roleName: string, again: IdentityResult)
    requires !AllWhiteSpace(roleName)
    ensures var first := CreateRole(s, norm, Some(roleName), Succeeded);
            CreateRole(first.store, norm, Some(roleName), again) ==
              Redirect("Role " + Quoted(Trim(roleName)) + " already exists.", first.store)
  {
  }

  /** Removing a role just assigned restores the store. */
  lemma {:induction false} AssignThenRemove(s: Store, norm: Normalizer, userId: string, roleName: string)
    requires AssignRole(s, norm, userId, roleName, Succeeded).store != s
    ensures var a := AssignRole(s, norm, userId, roleName, Succeeded).store;
            RemoveRole(a, norm, userId, roleName, Succeeded).store == s
  {
    var k := FindUserById(s, userId).value;
    var key := norm(roleName);
    var a := AssignRole(s, norm, userId, roleName, Succeeded).store;
    assert a == WithMemberships(s, k, s.users[k].roles + {key});
    FindUserByIdIgnoresMemberships(s, k, s.users[k].roles + {key}, userId);
    assert key !in s.users[k].roles;
    assert s.users[k].roles + {key} - {key} == s.users[k].roles;
    assert s.users[k := s.users[k]] == s.users;
  }

  /** Assigning a role just removed restores the store. */
  lemma {:induction false} RemoveThenAssign(s: Store, norm: Normalizer, userId: string, roleName: string)
    requires RemoveRole(s, norm, userId, roleName, Succeeded).store != s
    ensures var d := RemoveRole(s, norm, userId, roleName, Succeeded).store;
            AssignRole(d, norm, userId, roleName, Succeeded).store == s
  {
    var k := FindUserById(s, userId).value;
    var key := norm(roleName);
    var d := RemoveRole(s, norm, userId, roleName, Succeeded).store;
    assert d == WithMemberships(s, k, s.users[k].roles - {key});
    FindUserByIdIgnoresMemberships(s, k, s.users[k].roles - {key}, userId);
    assert key in s.users[k].roles;
    assert s.users[k].roles - {key} + {key} == s.users[k].roles;
    assert s.users[k := s.users[k]] == s.users;
  }
}

=== FILE: app_roles.dfy ===
/**
 * The reserved role names of the application and the test that tells a
 * system role from a project-tag role.
 */
module AppRoles {
  import opened Optional
  import opened Text

  const Administrator: string := "Administrator"
  const Manager: string := "Manager"
  const Viewer: string := "Viewer"

  /** The closed set of system roles, in declaration order. */
  const SystemRoles: seq<string> := [Administrator, Manager, Viewer]

  /** Membership in a collection whose comparer is ordinal ignore-case (the `HashSet` lookup). */
  function ContainsIgnoreCase(names: seq<string>, name: string): (r: bool)
    ensures r <==> exists i :: 0 <= i < |names| && EqualsIgnoreCase(name, names[i])
    decreases |names|
  {
    if |names| == 0 then false
    else
      SameIgnoringCaseCorrect(name, names[0]);
      assert forall i :: 1 <= i < |names| ==> names[i] == names[1..][i - 1];
      SameIgnoringCase(name, names[0]) || ContainsIgnoreCase(names[1..], name)
  }

  /**
   * True exactly for the three reserved names, compared ignoring case; null
   * and blank names are rejected before the lookup, and nothing is trimmed.
   */
  function IsSystemRole(roleName: Option<string>): (r: bool)
    ensures IsNullOrWhiteSpace(roleName) ==> !r
    ensures r <==> roleName.Some? &&
                   (|| EqualsIgnoreCase(roleName.value, Administrator)
                    || EqualsIgnoreCase(roleName.value, Manager)
                    || EqualsIgnoreCase(roleName.value, Viewer))
  {
    assert SystemRoles[0] == Administrator && SystemRoles[1] == Manager && SystemRoles[2] == Viewer;
    if IsNullOrWhiteSpace(roleName) then
      BlankIsNotSystemName(roleName.GetOr(""));
      false
    else
      ContainsIgnoreCase(SystemRoles, roleName.value)
  }

  /** A blank name matches none of the reserved names, whatever its case. */
  lemma BlankIsNotSystemName(name: string)
    ensures AllWhiteSpace(name) ==> forall i :: 0 <= i < |SystemRoles| ==> !EqualsIgnoreCase(name, SystemRoles[i])
  {
    if AllWhiteSpace(name) && |name| > 0 {
      assert IsWhiteSpace(name[0]);
      assert !('A' <= FoldUpper(name[0]) <= 'Z');
      forall i | 0 <= i < |SystemRoles| ensures !EqualsIgnoreCase(name, SystemRoles[i]) {
        assert 'A' <= SystemRoles[i][0] <= 'Z';
      }
    }
  }

  /** The three reserved names stay pairwise distinct even when case is ignored. */
  lemma SystemRolesDistinct()
    ensures |SystemRoles| == 3
    ensures forall i, j :: 0 <= i < j < |SystemRoles| ==> !EqualsIgnoreCase(SystemRoles[i], SystemRoles[j])
  {
    assert !EqualsIgnoreCase(Administrator, Manager) by { assert FoldUpper(Administrator[0]) != FoldUpper(Manager[0]); }
    assert !EqualsIgnoreCase(Manager, Viewer) by { assert FoldUpper(Manager[0]) != FoldUpper(Viewer[0]); }
    assert !EqualsIgnoreCase(Administrator, Viewer) by { assert |Administrator| != |Viewer|; }
  }

  /** Two spellings that differ only in case are classified alike. */
  lemma IsSystemRoleIgnoresCase(a: string, b: string)
    requires EqualsIgnoreCase(a, b)
    ensures IsSystemRole(Some(a)) == IsSystemRole(Some(b))
  {
    EqualsIgnoreCaseEquivalence(a, b, Administrator);
    EqualsIgnoreCaseEquivalence(b, a, Administrator);
    EqualsIgnoreCaseEquivalence(a, b, Manager);
    EqualsIgnoreCaseEquivalence(b, a, Manager);
    EqualsIgnoreCaseEquivalence(a, b, Viewer);
    EqualsIgnoreCaseEquivalence(b, a, Viewer);
  }

  /** Lower-case, upper-case and mixed-case spellings of the reserved names are system roles. */
  lemma CaseVariantsAreSystemRoles()
    ensures IsSystemRole(Some("administrator"))
    ensures IsSystemRole(Some("VIEWER"))
    ensures IsSystemRole(Some("mAnAgEr"))
  {
    assert EqualsIgnoreCase("administrator", Administrator) by {
      forall i | 0 <= i < 13 ensures FoldUpper("administrator"[i]) == FoldUpper(Administrator[i]) {
        if i == 0 {
          assert FoldUpper('a') == 'A';
        } else {
          assert "administrator"[i] == Administrator[i];
        }
      }
    }
    assert EqualsIgnoreCase("VIEWER", Viewer) by {
      forall i | 0 <= i < 6 ensures FoldUpper("VIEWER"[i]) == FoldUpper(Viewer[i]) {
        assert FoldUpper("viewer"[i]) == "VIEWER"[i];
      }
    }
    assert EqualsIgnoreCase("mAnAgEr", Manager) by {
      forall i | 0 <= i < 7 ensures FoldUpper("mAnAgEr"[i]) == FoldUpper(Manager[i]) {
        assert FoldUpper("mAnAgEr"[i]) == "MANAGER"[i];
      }
    }
  }

  /** No trimming: padding makes a reserved name an ordinary one. */
  lemma PaddedNamesAreNotSystemRoles()
    ensures !IsSystemRole(Some(" Manager"))
    ensures !IsSystemRole(Some("Viewer\t"))
  {
  }

  /** Project-tag roles, including the seeded test role and the legacy "Admin", are not system roles. */
  lemma ProjectTagsAreNotSystemRoles()
    ensures !IsSystemRole(Some("TestProjectRole"))
    ensures !IsSystemRole(Some("Admin"))
    ensures !IsSystemRole(None)
    ensures !IsSystemRole(Some(""))
    ensures !IsSystemRole(Some("   "))
  {
  }
}

=== FILE: identity_seeder.dfy ===
/**
 * Start-up seeding of roles, the administrator account and the test
 * project. Every step creates its object only when it is absent; the
 * outcome of each creation the framework performs is an input
 * (`Failures`), and so is the id the new administrator account receives.
 */
module IdentitySeeder {
  import opened Optional
  import opened IdentityStore
  import AppRoles

  /** The roles the seeder guarantees, in the order it creates them. */
  const DefaultRoles: seq<string> := [AppRoles.Administrator, AppRoles.Manager, AppRoles.Viewer]

  const DefaultAdminUserName: string := "admin"
  const DefaultAdminEmail: string := "admin@example.com"
  const DefaultAdminPassword: string := "Admin123!"
  const DefaultTestRole: string := "TestProjectRole"
  const DefaultTestProject: string := "Test Project"

  /** The configuration keys the seeder reads; `None` is a key that is not set. */
  datatype Configuration = Configuration(
    adminUserName: Option<string>,  // AdminUser:UserName
    adminEmail: Option<string>,     // AdminUser:Email
    adminPassword: Option<string>,  // AdminUser:Password
    testRole: Option<string>,       // SeedData:TestRole
    testProject: Option<string>)    // SeedData:TestProject

  datatype Settings = Settings(
    adminUserName: string, adminEmail: string, adminPassword: string,
    testRole: string, testProject: string)

  /**
   * Which framework calls report failure, in the order the run makes them:
   * creation of the listed default roles, creation of the administrator
   * account, adding it to the Administrator role, and creation of the test
   * role (a call of its own, whatever its name).
   */
  datatype Failures = Failures(
    roleCreation: set<string>, adminCreation: bool, adminRoleAssignment: bool, testRoleCreation: bool)

  const NoFailures: Failures := Failures({}, false, false, false)

  /** Each key that is not set falls back to its default. */
  function Resolve(c: Configuration): (st: Settings)
    ensures st.adminUserName == (if c.adminUserName.Some? then c.adminUserName.value else "admin")
    ensures st.adminEmail == (if c.adminEmail.Some? then c.adminEmail.value else "admin@example.com")
    ensures st.adminPassword == (if c.adminPassword.Some? then c.adminPassword.value else "Admin123!")
    ensures st.testRole == (if c.testRole.Some? then c.testRole.value else "TestProjectRole")
    ensures st.testProject == (if c.testProject.Some? then c.testProject.value else "Test Project")
  {
    Settings(
      c.adminUserName.GetOr(DefaultAdminUserName),
      c.adminEmail.GetOr(DefaultAdminEmail),
      c.adminPassword.GetOr(DefaultAdminPassword),
      c.testRole.GetOr(DefaultTestRole),
      c.testProject.GetOr(DefaultTestProject))
  }

  /** The roles of `s` are all still in `r`, under the same name. */
  ghost predicate RolesKept(s: Store, r: Store) {
    forall k :: k in s.roles ==> k in r.roles && r.roles[k] == s.roles[k]
  }

  /**
   * `r` only adds to `s`: roles keep their names, users keep their id, name,
   * e-mail and memberships, and projects keep their name and their links,
   * new links coming after the old ones.
   */
  ghost predicate Grows(s: Store, r: Store) {
    && RolesKept(s, r)
    && |s.users| <= |r.users|
    && (forall i :: 0 <= i < |s.users| ==>
          && r.users[i].id == s.users[i].id
          && r.users[i].userName == s.users[i].userName
          && r.users[i].email == s.users[i].email
          && s.users[i].roles <= r.users[i].roles)
    && |s.projects| <= |r.projects|
    && (forall j :: 0 <= j < |s.projects| ==>
          r.projects[j].name == s.projects[j].name && s.projects[j].roles <= r.projects[j].roles)
  }

  lemma GrowsTransitive(a: Store, b: Store, c: Store)
    requires Grows(a, b) && Grows(b, c)
    ensures Grows(a, c)
  {
  }

  /** A step that leaves users and projects alone and keeps every role grows the store. */
  lemma RolesOnlyGrows(s: Store, r: Store)
    requires RolesKept(s, r) && r.users == s.users && r.projects == s.projects
    ensures Grows(s, r)
  {
  }

  /** Creates the role unless it exists; a failed creation is logged and the run goes on. */
  function EnsureRole(s: Store, norm: Normalizer, name: string, fails: bool): (r: Store)
    ensures RoleExists(s, norm, name) ==> r == s
    ensures RoleExists(r, norm, name) <==> RoleExists(s, norm, name) || !fails
    ensures r.users == s.users && r.projects == s.projects
    ensures RolesKept(s, r)
    ensures forall k :: k in r.roles ==> k in s.roles || k == norm(name)
    ensures norm(name) in r.roles && norm(name) !in s.roles ==> r.roles[norm(name)] == name
  {
    if RoleExists(s, norm, name) || fails then s
    else WithRole(s, norm, name)
  }

  /** `EnsureRole` for each name in turn. */
  function EnsureRoles(s: Store, norm: Normalizer, names: seq<string>, f: Failures): (r: Store)
    ensures (forall i :: 0 <= i < |names| ==> RoleExists(s, norm, names[i])) ==> r == s
    ensures forall i :: 0 <= i < |names| && names[i] !in f.roleCreation ==> RoleExists(r, norm, names[i])
    ensures r.users == s.users && r.projects == s.projects
    ensures RolesKept(s, r)
    ensures forall k :: k in r.roles && k !in s.roles ==>
              norm(r.roles[k]) == k && r.roles[k] in names && r.roles[k] !in f.roleCreation
    decreases |names|
  {
    if |names| == 0 then s
    else
      var s' := EnsureRole(s, norm, names[0], names[0] in f.roleCreation);
      var r := EnsureRoles(s', norm, names[1..], f);
      assert forall i :: 1 <= i < |names| ==> names[i] == names[1..][i - 1];
      r
  }

  /** Where seeding stands after looking for the administrator account. */
  datatype AdminLookup = Stop | Continue(store: Store, admin: nat)

  /**
   * Finds the administrator account by name or creates it; a failed
   * creation ends the whole run.
   */
  function EnsureAdminUser(s: Store, norm: Normalizer, st: Settings, f: Failures, newUserId: string): (r: AdminLookup)
    ensures FindUserByName(s, norm, st.adminUserName).Some? ==>
              r == Continue(s, FindUserByName(s, norm, st.adminUserName).value)
    ensures FindUserByName(s, norm, st.adminUserName).None? ==>
              if f.adminCreation then r == Stop
              else r.Continue? && r.admin == |s.users|
                   && r.store == s.(users := s.users + [User(newUserId, Some(st.adminUserName), Some(st.adminEmail), {})])
    ensures r.Continue? ==> r.admin < |r.store.users| && FindUserByName(r.store, norm, st.adminUserName) == Some(r.admin)
    ensures r.Continue? ==> r.store.roles == s.roles && r.store.projects == s.projects
  {
    match FindUserByName(s, norm, st.adminUserName)
    case Some(k) => Continue(s, k)
    case None =>
      if f.adminCreation then Stop
      else
        var admin := User(newUserId, Some(st.adminUserName), Some(st.adminEmail), {});
        var s' := s.(users := s.users + [admin]);
        FirstIndexAppend(s.users, admin, (u: User) => u.userName.Some? && norm(u.userName.value) == norm(st.adminUserName));
        Continue(s', |s.users|)
  }

  /**
   * Adds the account at position `k` to the Administrator role unless it is
   * already a member. `None` is the exception `AddToRoleAsync` throws when
   * the Administrator role does not exist, which ends the whole run; a
   * reported failure is logged and the run goes on.
   */
  function EnsureAdministrator(s: Store, norm: Normalizer, k: nat, f: Failures): (r: Option<Store>)
    requires k < |s.users|
    ensures IsInRole(s, norm, s.users[k], AppRoles.Administrator) ==> r == Some(s)
    ensures r.None? <==> !RoleExists(s, norm, AppRoles.Administrator)
    ensures r.Some? ==> r.value == s || r.value == WithMemberships(s, k, s.users[k].roles + {norm(AppRoles.Administrator)})
    ensures r.Some? && !f.adminRoleAssignment ==> IsInRole(r.value, norm, r.value.users[k], AppRoles.Administrator)
    ensures r.Some? ==> r.value.roles == s.roles && r.value.projects == s.projects && |r.value.users| == |s.users|
  {
    if IsInRole(s, norm, s.users[k], AppRoles.Administrator) then Some(s)
    else if !RoleExists(s, norm, AppRoles.Administrator) then None
    else if f.adminRoleAssignment then Some(s)
    else Some(WithMemberships(s, k, s.users[k].roles + {norm(AppRoles.Administrator)}))
  }

  /** `FirstOrDefault(p => p.Name == name)` over the projects: an exact, ordinal match. */
  function FindProject(s: Store, name: string): (r: Option<nat>)
    ensures r.Some? ==> r.value < |s.projects| && s.projects[r.value].name == name
    ensures r.Some? ==> forall j :: 0 <= j < r.value ==> s.projects[j].name != name
    ensures r.None? <==> forall j :: 0 <= j < |s.projects| ==> s.projects[j].name != name
  {
    FirstIndex(s.projects, (p: Project) => p.name == name)
  }

  /** The test project exists and links the test role. */
  predicate TestProjectLinked(s: Store, norm: Normalizer, st: Settings) {
    FindProject(s, st.testProject).Some? &&
    norm(st.testRole) in s.projects[FindProject(s, st.testProject).value].roles
  }

  /**
   * `project.Roles.Add(role)` unless the project already links the role: the
   * link is appended after the existing ones, and nothing is duplicated.
   */
  function LinkRole(p: Project, key: string): (p': Project)
    ensures p'.name == p.name
    ensures p.roles <= p'.roles && key in p'.roles
    ensures key in p.roles ==> p' == p
    ensures NoDuplicates(p.roles) ==> NoDuplicates(p'.roles)
    ensures forall q :: 0 <= q < |p'.roles| ==> p'.roles[q] == key || p'.roles[q] in p.roles
  {
    if key in p.roles then p else p.(roles := p.roles + [key])
  }

  /** Adds the test project, without links, unless a project already has that name. */
  function AddProjectIfMissing(s: Store, name: string): (r: Store)
    ensures r.roles == s.roles && r.users == s.users
    ensures FindProject(s, name).Some? ==> r == s
    ensures FindProject(s, name).None? ==> r.projects == s.projects + [Project(name, [])]
    ensures FindProject(r, name).Some?
  {
    if FindProject(s, name).Some? then s
    else
      FirstIndexAppend(s.projects, Project(name, []), (p: Project) => p.name == name);
      s.(projects := s.projects + [Project(name, [])])
  }

  /**
   * Links the role to the project the lookup by name finds (the first with
   * that name), appending the link if it is missing; any later project with
   * the same name is left alone.
   */
  function LinkToProject(s: Store, name: string, key: string): (r: Store)
    requires FindProject(s, name).Some?
    ensures r.roles == s.roles && r.users == s.users && |r.projects| == |s.projects|
    ensures forall j :: 0 <= j < |s.projects| ==>
              r.projects[j] == s.projects[j] || r.projects[j] == LinkRole(s.projects[j], key)
    ensures forall j :: 0 <= j < |s.projects| && s.projects[j].name != name ==> r.projects[j] == s.projects[j]
    ensures forall j :: 0 <= j < |s.projects| && j != FindProject(s, name).value ==> r.projects[j] == s.projects[j]
    ensures FindProject(r, name) == FindProject(s, name)
    ensures key in r.projects[FindProject(s, name).value].roles
    ensures key in s.projects[FindProject(s, name).value].roles ==> r == s
  {
    var i := FindProject(s, name).value;
    var p' := LinkRole(s.projects[i], key);
    ProjectLookupAfterUpdate(s, s.projects, i, p');
    assert s.projects[i := s.projects[i]] == s.projects;
    s.(projects := s.projects[i := p'])
  }

  /**
   * `r`'s projects are `s`'s, except that the first project named `name`
   * may have gained the link `key`, or one project `name` linking only `key`
   * may have been added at the end.
   */
  ghost predicate LinksOnly(s: Store, r: Store, name: string, key: string) {
    && (|r.projects| == |s.projects| || |r.projects| == |s.projects| + 1)
    && (forall j :: 0 <= j < |s.projects| ==>
          r.projects[j] == s.projects[j] ||
          (FindProject(s, name) == Some(j) && r.projects[j] == LinkRole(s.projects[j], key)))
    && (forall j :: |s.projects| <= j < |r.projects| ==> r.projects[j] == Project(name, [key]))
  }

  /** Under `LinksOnly`, no link list gains a duplicate and every link is old or `key`. */
  lemma LinksOnlyLinks(s: Store, r: Store, name: string, key: string, j: nat)
    requires LinksOnly(s, r, name, key) && j < |r.projects|
    ensures j < |s.projects| && NoDuplicates(s.projects[j].roles) ==> NoDuplicates(r.projects[j].roles)
    ensures j >= |s.projects| ==> NoDuplicates(r.projects[j].roles)
    ensures forall q :: 0 <= q < |r.projects[j].roles| ==>
              r.projects[j].roles[q] == key || (j < |s.projects| && r.projects[j].roles[q] in s.projects[j].roles)
  {
  }

  /**
   * When the test role exists: creates the test project if no project has
   * that name, then links the role to it unless the link is already there.
   */
  function EnsureTestProject(s: Store, norm: Normalizer, st: Settings): (r: Store)
    ensures !RoleExists(s, norm, st.testRole) ==> r == s
    ensures TestProjectLinked(s, norm, st) ==> r == s
    ensures RoleExists(s, norm, st.testRole) ==> TestProjectLinked(r, norm, st)
    ensures r.roles == s.roles && r.users == s.users
    ensures FindProject(s, st.testProject).Some? ==> |r.projects| == |s.projects|
    ensures |r.projects| == |s.projects| || |r.projects| == |s.projects| + 1
    ensures forall j :: 0 <= j < |s.projects| && s.projects[j].name != st.testProject ==>
              r.projects[j] == s.projects[j]
    ensures forall j :: 0 <= j < |s.projects| && Some(j) != FindProject(s, st.testProject) ==>
              r.projects[j] == s.projects[j]
    ensures LinksOnly(s, r, st.testProject, norm(st.testRole))
    ensures forall j :: 0 <= j < |s.projects| ==>
              r.projects[j].name == s.projects[j].name && s.projects[j].roles <= r.projects[j].roles
  {
    if !RoleExists(s, norm, st.testRole) then s
    else
      var s' := AddProjectIfMissing(s, st.testProject);
      var r := LinkToProject(s', st.testProject, norm(st.testRole));
      assert forall j :: 0 <= j < |s.projects| ==> s'.projects[j] == s.projects[j];
      r
  }

  /** The lookup by name finds the slot `EnsureTestProject` filled. */
  lemma ProjectLookupAfterUpdate(s: Store, ps: seq<Project>, i: nat, p': Project)
    requires FindProject(s, p'.name).Some? ==> ps == s.projects && i == FindProject(s, p'.name).value
    requires FindProject(s, p'.name).None? ==> |ps| == |s.projects| + 1 && i == |s.projects| && ps[..|s.projects|] == s.projects
    ensures i < |ps|
    ensures FindProject(s.(projects := ps[i := p']), p'.name) == Some(i)
  {
    var t := s.(projects := ps[i := p']);
    if FindProject(s, p'.name).None? {
      assert forall j :: 0 <= j < |s.projects| ==> t.projects[j] == ps[..|s.projects|][j];
    }
    assert forall j :: 0 <= j < i ==> t.projects[j].name != p'.name;
    assert t.projects[i].name == p'.name;
    var r := FindProject(t, p'.name);
    assert r.Some?;
    assert !(r.value < i);
    assert !(r.value > i);
  }

  /**
   * `SeedAsync`: the default roles, the administrator account (stopping if
   * it cannot be created), its Administrator membership (the run ends with
   * an exception if that role is missing), the test role, and the test
   * project with its link to the test role. The result is the store as the
   * run leaves it, however it ends.
   */
  function Seed(s: Store, norm: Normalizer, config: Configuration, f: Failures, newUserId: string): (r: Store)
    // Seeding only adds, and at most the administrator account is added.
    ensures Grows(s, r)
    ensures |r.users| <= |s.users| + 1
  {
    var st := Resolve(config);
    var s1 := EnsureRoles(s, norm, DefaultRoles, f);
    match EnsureAdminUser(s1, norm, st, f, newUserId)
    case Stop => s1
    case Continue(s2, k) =>
      RolesOnlyGrows(s, s1);
      EnsureAdminUserGrows(s1, norm, st, f, newUserId);
      GrowsTransitive(s, s1, s2);
      EnsureAdministratorGrows(s2, norm, k, f);
      match EnsureAdministrator(s2, norm, k, f)
      case None => s2
      case Some(s3) =>
        var s4 := EnsureRole(s3, norm, st.testRole, f.testRoleCreation);
        RolesOnlyGrows(s3, s4);
        EnsureTestProjectGrows(s4, norm, st);
        var r := EnsureTestProject(s4, norm, st);
        GrowsTransitive(s, s2, s3);
        GrowsTransitive(s, s3, s4);
        GrowsTransitive(s, s4, r);
        r
  }

  lemma EnsureAdminUserGrows(s: Store, norm: Normalizer, st: Settings, f: Failures, newUserId: string)
    ensures var a := EnsureAdminUser(s, norm, st, f, newUserId);
            a.Continue? ==> Grows(s, a.store) && |a.store.users| <= |s.users| + 1
  {
  }

  lemma EnsureAdministratorGrows(s: Store, norm: Normalizer, k: nat, f: Failures)
    requires k < |s.users|
    ensures var r := EnsureAdministrator(s, norm, k, f);
            r.Some? ==> Grows(s, r.value)
  {
  }

  lemma EnsureTestProjectGrows(s: Store, norm: Normalizer, st: Settings)
    ensures Grows(s, EnsureTestProject(s, norm, st))
  {
  }

  /** Each default role is created when absent; a failed creation does not abort the run. */
  lemma SeedCreatesDefaultRoles(s: Store, norm: Normalizer, config: Configuration, f: Failures, newUserId: string)
    ensures var r := Seed(s, norm, config, f, newUserId);
            forall i :: 0 <= i < |DefaultRoles| && DefaultRoles[i] !in f.roleCreation ==> RoleExists(r, norm, DefaultRoles[i])
  {
    var st := Resolve(config);
    var s1 := EnsureRoles(s, norm, DefaultRoles, f);
    var r := Seed(s, norm, config, f, newUserId);
    match EnsureAdminUser(s1, norm, st, f, newUserId) {
      case Stop =>
        assert r == s1;
      case Continue(s2, k) =>
        assert s2.roles == s1.roles;
        match EnsureAdministrator(s2, norm, k, f) {
          case None =>
            assert r == s2;
          case Some(s3) =>
            var s4 := EnsureRole(s3, norm, st.testRole, f.testRoleCreation);
            assert r == EnsureTestProject(s4, norm, st);
            assert RolesKept(s3, s4) && r.roles == s4.roles;
        }
    }
    assert RolesKept(s1, r);
  }

  /** With no administrator account and a failed creation, nothing after the roles happens. */
  lemma SeedStopsWithoutAdmin(s: Store, norm: Normalizer, config: Configuration, f: Failures, newUserId: string)
    requires FindUserByName(s, norm, Resolve(config).adminUserName).None?
    requires f.adminCreation
    ensures var r := Seed(s, norm, config, f, newUserId);
            r == EnsureRoles(s, norm, DefaultRoles, f) && r.users == s.users && r.projects == s.projects
  {
    var s1 := EnsureRoles(s, norm, DefaultRoles, f);
    assert s1.users == s.users;
    assert FindUserByName(s1, norm, Resolve(config).adminUserName).None?;
    assert EnsureAdminUser(s1, norm, Resolve(config), f, newUserId) == Stop;
  }

  /**
   * Without the test role, no project or link changes. When the run gets
   * past the Administrator membership (the account exists or is created,
   * and the Administrator role exists), the test role is created unless
   * that fails, and if it exists the test project exists and links it.
   */
  lemma SeedLinksTestProject(s: Store, norm: Normalizer, config: Configuration, f: Failures, newUserId: string)
    ensures var r := Seed(s, norm, config, f, newUserId);
            !RoleExists(r, norm, Resolve(config).testRole) ==> r.projects == s.projects
    ensures var r := Seed(s, norm, config, f, newUserId);
            (&& RoleExists(EnsureRoles(s, norm, DefaultRoles, f), norm, AppRoles.Administrator)
             && !f.adminCreation
             && RoleExists(r, norm, Resolve(config).testRole))
            ==> TestProjectLinked(r, norm, Resolve(config))
    ensures var r := Seed(s, norm, config, f, newUserId);
            (&& RoleExists(EnsureRoles(s, norm, DefaultRoles, f), norm, AppRoles.Administrator)
             && !f.adminCreation
             && !f.testRoleCreation)
            ==> RoleExists(r, norm, Resolve(config).testRole)
  {
    var st := Resolve(config);
    var s1 := EnsureRoles(s, norm, DefaultRoles, f);
    match EnsureAdminUser(s1, norm, st, f, newUserId)
    case Stop =>
    case Continue(s2, k) =>
      match EnsureAdministrator(s2, norm, k, f)
      case None =>
      case Some(s3) =>
        var s4 := EnsureRole(s3, norm, st.testRole, f.testRoleCreation);
        var r := EnsureTestProject(s4, norm, st);
        assert r.roles == s4.roles;
        assert s3.projects == s.projects;
  }

  /**
   * If the Administrator role is still missing after the roles step and the
   * run reaches the assignment, the exception ends it there: no role is
   * created after the default ones and no project changes.
   */
  lemma SeedEndsWithoutAdministratorRole(s: Store, norm: Normalizer, config: Configuration, f: Failures, newUserId: string)
    requires !RoleExists(EnsureRoles(s, norm, DefaultRoles, f), norm, AppRoles.Administrator)
    ensures var r := Seed(s, norm, config, f, newUserId);
            r.roles == EnsureRoles(s, norm, DefaultRoles, f).roles && r.projects == s.projects
  {
    var st := Resolve(config);
    var s1 := EnsureRoles(s, norm, DefaultRoles, f);
    match EnsureAdminUser(s1, norm, st, f, newUserId)
    case Stop =>
    case Continue(s2, k) =>
      assert s2.roles == s1.roles;
      assert EnsureAdministrator(s2, norm, k, f).None?;
  }

  /**
   * On an empty store, a failed creation of the Administrator role ends the
   * run before the test role and the test project exist.
   */
  lemma FailedAdministratorRoleLeavesNoTestProject()
    ensures var r := Seed(Store(map[], [], []), (x: string) => x, Configuration(None, None, None, None, None),
                          Failures({AppRoles.Administrator}, false, false, false), "u1");
            r.projects == [] && DefaultTestRole !in r.roles
  {
    var s := Store(map[], [], []);
    var norm := (x: string) => x;
    var f := Failures({AppRoles.Administrator}, false, false, false);
    var s1 := EnsureRoles(s, norm, DefaultRoles, f);
    assert AppRoles.Administrator !in s1.roles;
    assert DefaultTestRole !in s1.roles;
    SeedEndsWithoutAdministratorRole(s, norm, Configuration(None, None, None, None, None), f, "u1");
  }

  /** The administrator account ends in the Administrator role unless a step it needs fails. */
  lemma SeedMakesAdministrator(s: Store, norm: Normalizer, config: Configuration, f: Failures, newUserId: string)
    requires !f.adminCreation && !f.adminRoleAssignment && AppRoles.Administrator !in f.roleCreation
    ensures var r := Seed(s, norm, config, f, newUserId);
            var k := FindUserByName(r, norm, Resolve(config).adminUserName);
            k.Some? && IsInRole(r, norm, r.users[k.value], AppRoles.Administrator)
  {
    var st := Resolve(config);
    var s1 := EnsureRoles(s, norm, DefaultRoles, f);
    assert DefaultRoles[0] == AppRoles.Administrator;
    assert RoleExists(s1, norm, AppRoles.Administrator);
    var s2 := EnsureAdminUser(s1, norm, st, f, newUserId).store;
    var k := EnsureAdminUser(s1, norm, st, f, newUserId).admin;
    var s3 := EnsureAdministrator(s2, norm, k, f).value;
    AdministratorAssigned(s2, norm, k, f, st.adminUserName);
    AdministratorSurvivesTestProject(s3, norm, st, f, k);
    assert EnsureTestProject(EnsureRole(s3, norm, st.testRole, f.testRoleCreation), norm, st) == Seed(s, norm, config, f, newUserId);
  }

  /** A successful assignment leaves the account found by name in the Administrator role. */
  lemma AdministratorAssigned(s: Store, norm: Normalizer, k: nat, f: Failures, userName: string)
    requires k < |s.users| && FindUserByName(s, norm, userName) == Some(k)
    requires RoleExists(s, norm, AppRoles.Administrator) && !f.adminRoleAssignment
    ensures var r := EnsureAdministrator(s, norm, k, f).value;
            FindUserByName(r, norm, userName) == Some(k) && IsInRole(r, norm, r.users[k], AppRoles.Administrator)
  {
    var r := EnsureAdministrator(s, norm, k, f).value;
    if r != s {
      FindUserByNameIgnoresMemberships(s, norm, k, s.users[k].roles + {norm(AppRoles.Administrator)}, userName);
    }
  }

  /** The test-role and test-project steps touch no user and drop no role. */
  lemma AdministratorSurvivesTestProject(s: Store, norm: Normalizer, st: Settings, f: Failures, k: nat)
    requires k < |s.users| && FindUserByName(s, norm, st.adminUserName) == Some(k)
    requires IsInRole(s, norm, s.users[k], AppRoles.Administrator)
    ensures var r := EnsureTestProject(EnsureRole(s, norm, st.testRole, f.testRoleCreation), norm, st);
            FindUserByName(r, norm, st.adminUserName) == Some(k) && IsInRole(r, norm, r.users[k], AppRoles.Administrator)
  {
    var s4 := EnsureRole(s, norm, st.testRole, f.testRoleCreation);
    var r := EnsureTestProject(s4, norm, st);
    assert r.users == s.users && RolesKept(s, r);
  }

  /**
   * Everything the seeder ensures is in place: the default roles, an
   * administrator account in the Administrator role, the test role, and the
   * test project linking it.
   */
  ghost predicate Seeded(s: Store, norm: Normalizer, st: Settings) {
    && (forall i :: 0 <= i < |DefaultRoles| ==> RoleExists(s, norm, DefaultRoles[i]))
    && FindUserByName(s, norm, st.adminUserName).Some?
    && IsInRole(s, norm, s.users[FindUserByName(s, norm, st.adminUserName).value], AppRoles.Administrator)
    && RoleExists(s, norm, st.testRole)
    && TestProjectLinked(s, norm, st)
  }

  /** A run in which every creation succeeds leaves everything in place. */
  lemma SeedEstablishesSeeded(s: Store, norm: Normalizer, config: Configuration, newUserId: string)
    ensures Seeded(Seed(s, norm, config, NoFailures, newUserId), norm, Resolve(config))
  {
    SeedCreatesDefaultRoles(s, norm, config, NoFailures, newUserId);
    SeedMakesAdministrator(s, norm, config, NoFailures, newUserId);
    SeedLinksTestProject(s, norm, config, NoFailures, newUserId);
  }

  /** On a store where everything is in place, a run with no failures changes nothing. */
  lemma SeededIsFixpoint(s: Store, norm: Normalizer, config: Configuration, newUserId: string)
    requires Seeded(s, norm, Resolve(config))
    ensures Seed(s, norm, config, NoFailures, newUserId) == s
  {
    var f := NoFailures;
    var st := Resolve(config);
    assert EnsureRoles(s, norm, DefaultRoles, f) == s;
    var k := FindUserByName(s, norm, st.adminUserName).value;
    assert EnsureAdminUser(s, norm, st, f, newUserId) == Continue(s, k);
    assert EnsureAdministrator(s, norm, k, f) == Some(s);
    assert EnsureRole(s, norm, st.testRole, f.testRoleCreation) == s;
    assert EnsureTestProject(s, norm, st) == s;
  }

  /** When every creation succeeds, a second run leaves the store as the first run left it. */
  lemma SeedIdempotent(s: Store, norm: Normalizer, config: Configuration, newUserId: string, againUserId: string)
    ensures var r := Seed(s, norm, config, NoFailures, newUserId);
            Seed(r, norm, config, NoFailures, againUserId) == r
  {
    SeedEstablishesSeeded(s, norm, config, newUserId);
    SeededIsFixpoint(Seed(s, norm, config, NoFailures, newUserId), norm, config, againUserId);
  }

  lemma EnsureRolesPreservesValid(s: Store, norm: Normalizer, names: seq<string>, f: Failures)
    requires Valid(s, norm)
    ensures Valid(EnsureRoles(s, norm, names, f), norm)
    decreases |names|
  {
    if |names| > 0 {
      var s' := EnsureRole(s, norm, names[0], names[0] in f.roleCreation);
      assert Valid(s', norm);
      EnsureRolesPreservesValid(s', norm, names[1..], f);
    }
  }

  lemma EnsureAdminUserPreservesValid(s: Store, norm: Normalizer, st: Settings, f: Failures, newUserId: string)
    requires Valid(s, norm)
    requires forall i :: 0 <= i < |s.users| ==> s.users[i].id != newUserId
    ensures var a := EnsureAdminUser(s, norm, st, f, newUserId);
            a.Continue? ==> Valid(a.store, norm)
  {
  }

  lemma EnsureAdministratorPreservesValid(s: Store, norm: Normalizer, k: nat, f: Failures)
    requires Valid(s, norm)
    requires k < |s.users|
    ensures var r := EnsureAdministrator(s, norm, k, f);
            r.Some? ==> Valid(r.value, norm)
  {
  }

  lemma EnsureTestProjectPreservesValid(s: Store, norm: Normalizer, st: Settings)
    requires Valid(s, norm)
    ensures Valid(EnsureTestProject(s, norm, st), norm)
  {
    var r := EnsureTestProject(s, norm, st);
    forall p | 0 <= p < |r.projects|
      ensures NoDuplicates(r.projects[p].roles)
      ensures forall q :: 0 <= q < |r.projects[p].roles| ==> r.projects[p].roles[q] in r.roles
    {
      LinksOnlyLinks(s, r, st.testProject, norm(st.testRole), p);
      if p < |s.projects| {
        assert NoDuplicates(s.projects[p].roles);
      }
    }
  }

  /** Seeding keeps the store well formed, given a fresh id for a new account. */
  lemma SeedPreservesValid(s: Store, norm: Normalizer, config: Configuration, f: Failures, newUserId: string)
    requires Valid(s, norm)
    requires forall i :: 0 <= i < |s.users| ==> s.users[i].id != newUserId
    ensures Valid(Seed(s, norm, config, f, newUserId), norm)
  {
    var st := Resolve(config);
    var s1 := EnsureRoles(s, norm, DefaultRoles, f);
    EnsureRolesPreservesValid(s, norm, DefaultRoles, f);
    EnsureAdminUserPreservesValid(s1, norm, st, f, newUserId);
    match EnsureAdminUser(s1, norm, st, f, newUserId)
    case Stop =>
    case Continue(s2, k) =>
      EnsureAdministratorPreservesValid(s2, norm, k, f);
      match EnsureAdministrator(s2, norm, k, f)
      case None =>
      case Some(s3) =>
        var s4 := EnsureRole(s3, norm, st.testRole, f.testRoleCreation);
        assert Valid(s4, norm);
        EnsureTestProjectPreservesValid(s4, norm, st);
  }
}

=== FILE: identity_store.dfy ===
/**
 * The state that ASP.NET Identity's RoleManager/UserManager and the
 * application's project table hold, abstracted to plain values.
 *
 * Roles are kept under their normalized name, the key Identity looks them
 * up by; the normaliser itself is a parameter (`Normalizer`). A role's
 * identity (its `Id`) is represented by that key, which is unique per role.
 */
module IdentityStore {
  import opened Optional

  /** Identity's lookup normaliser (by default `ToUpperInvariant`), left abstract. */
  type Normalizer = string -> string

  /** An `ApplicationUser` with the role keys it is a member of. */
  datatype User = User(id: string, userName: Option<string>, email: Option<string>, roles: set<string>)

  /** A `Project` with the keys of the roles linked to it, in insertion order. */
  datatype Project = Project(name: string, roles: seq<string>)

  /** Roles by normalized name, users in table order, projects in table order. */
  datatype Store = Store(roles: map<string, string>, users: seq<User>, projects: seq<Project>)

  /** The outcome of an Identity operation (`IdentityResult`). */
  datatype IdentityResult = Succeeded | Failed(errors: seq<string>)

  predicate NoDuplicates<T(==)>(xs: seq<T>) {
    forall i, j :: 0 <= i < j < |xs| ==> xs[i] != xs[j]
  }

  /**
   * What the database constraints guarantee: each role sits under its own
   * normalized name, user ids are unique, memberships and project links
   * refer to existing roles, and no project links a role twice.
   */
  ghost predicate Valid(s: Store, norm: Normalizer) {
    && (forall k :: k in s.roles ==> norm(s.roles[k]) == k)
    && (forall i, j :: 0 <= i < j < |s.users| ==> s.users[i].id != s.users[j].id)
    && (forall i :: 0 <= i < |s.users| ==> s.users[i].roles <= s.roles.Keys)
    && (forall p :: 0 <= p < |s.projects| ==>
          NoDuplicates(s.projects[p].roles) &&
          forall q :: 0 <= q < |s.projects[p].roles| ==> s.projects[p].roles[q] in s.roles)
  }

  /**
   * `RoleManager.RoleExistsAsync`: the lookup goes by normalized name, so in
   * a well-formed store it finds a role exactly when some stored role name
   * normalizes like the one asked for.
   */
  function RoleExists(s: Store, norm: Normalizer, roleName: string): (b: bool)
    ensures Valid(s, norm) ==> (b <==> exists k :: k in s.roles && norm(s.roles[k]) == norm(roleName))
  {
    norm(roleName) in s.roles
  }

  /**
   * `UserManager.IsInRoleAsync`: the role is looked up first, then the
   * membership, so an unknown role is never held. For a user of a
   * well-formed store the role lookup never decides the answer.
   */
  function IsInRole(s: Store, norm: Normalizer, u: User, roleName: string): (b: bool)
    ensures b ==> RoleExists(s, norm, roleName)
    ensures Valid(s, norm) && u in s.users ==> (b <==> norm(roleName) in u.roles)
  {
    norm(roleName) in s.roles && norm(roleName) in u.roles
  }

  predicate UserExists(s: Store, userId: string) {
    exists i :: 0 <= i < |s.users| && s.users[i].id == userId
  }

  /** `UserManager.FindByIdAsync`: the position of the user with that id. */
  function FindUserById(s: Store, userId: string): (r: Option<nat>)
    ensures r.Some? ==> r.value < |s.users| && s.users[r.value].id == userId
    ensures r.None? <==> !UserExists(s, userId)
  {
    FirstIndex(s.users, (u: User) => u.id == userId)
  }

  /** `UserManager.FindByNameAsync`: the first user whose name normalizes like `userName`. */
  function FindUserByName(s: Store, norm: Normalizer, userName: string): (r: Option<nat>)
    ensures r.Some? ==> r.value < |s.users| && s.users[r.value].userName.Some?
                        && norm(s.users[r.value].userName.value) == norm(userName)
    ensures r.None? ==>
              forall i :: 0 <= i < |s.users| && s.users[i].userName.Some? ==>
                norm(s.users[i].userName.value) != norm(userName)
  {
    FirstIndex(s.users, (u: User) => u.userName.Some? && norm(u.userName.value) == norm(userName))
  }

  /** The store after the user at position `k` got the role set `roles`; nothing else differs. */
  function WithMemberships(s: Store, k: nat, roles: set<string>): (r: Store)
    requires k < |s.users|
    ensures r.roles == s.roles && r.projects == s.projects && |r.users| == |s.users|
    ensures r.users[k].roles == roles
    ensures r.users[k].id == s.users[k].id && r.users[k].userName == s.users[k].userName
    ensures r.users[k].email == s.users[k].email
    ensures forall j :: 0 <= j < |s.users| && j != k ==> r.users[j] == s.users[j]
  {
    s.(users := s.users[k := s.users[k].(roles := roles)])
  }

  /** The store with role `name` added under its normalized key; nothing else differs. */
  function WithRole(s: Store, norm: Normalizer, name: string): (r: Store)
    ensures RoleExists(r, norm, name) && r.roles[norm(name)] == name
    ensures r.users == s.users && r.projects == s.projects
    ensures forall k :: k in r.roles <==> k in s.roles || k == norm(name)
    ensures forall k :: k in s.roles && k != norm(name) ==> r.roles[k] == s.roles[k]
    ensures Valid(s, norm) ==> Valid(r, norm)
  {
    s.(roles := s.roles[norm(name) := name])
  }

  /** Memberships do not take part in the lookup by id. */
  lemma FindUserByIdIgnoresMemberships(s: Store, k: nat, roles: set<string>, userId: string)
    requires k < |s.users|
    ensures FindUserById(WithMemberships(s, k, roles), userId) == FindUserById(s, userId)
  {
    var s' := WithMemberships(s, k, roles);
    FirstIndexPointwise(s'.users, (u: User) => u.id == userId, s.users, (u: User) => u.id == userId);
  }

  /** Memberships do not take part in the lookup by name. */
  lemma FindUserByNameIgnoresMemberships(s: Store, norm: Normalizer, k: nat, roles: set<string>, userName: string)
    requires k < |s.users|
    ensures FindUserByName(WithMemberships(s, k, roles), norm, userName) == FindUserByName(s, norm, userName)
  {
    var s' := WithMemberships(s, k, roles);
    var p := (u: User) => u.userName.Some? && norm(u.userName.value) == norm(userName);
    FirstIndexPointwise(s'.users, p, s.users, p);
  }
}

=== FILE: optional.dfy ===
/** C#'s nullable references and LINQ's first-match lookup, as value types. */
module Optional {

  /** A nullable value: `None` stands for C#'s `null`. */
  datatype Option<+T> = None | Some(value: T) {

    /** The `??` operator: the value if present, else the fallback. */
    function GetOr(fallback: T): (r: T)
      ensures this == Some(r) || (this == None && r == fallback)
    {
      match this
      case Some(v) => v
      case None => fallback
    }
  }

  /** The index of the first element satisfying `p`, as `FirstOrDefault` finds it. */
  function FirstIndex<T>(xs: seq<T>, p: T -> bool): (r: Option<nat>)
    ensures r.Some? ==> r.value < |xs| && p(xs[r.value])
    ensures r.Some? ==> forall j :: 0 <= j < r.value ==> !p(xs[j])
    ensures r.None? <==> forall j :: 0 <= j < |xs| ==> !p(xs[j])
    decreases |xs|
  {
    if |xs| == 0 then None
    else if p(xs[0]) then Some(0)
    else match FirstIndex(xs[1..], p)
      case None => None
      case Some(i) => Some(i + 1)
  }

  /** The first match depends only on which positions satisfy the predicate. */
  lemma {:induction false} FirstIndexPointwise<T, U>(xs: seq<T>, p: T -> bool, ys: seq<U>, q: U -> bool)
    requires |xs| == |ys|
    requires forall i :: 0 <= i < |xs| ==> p(xs[i]) == q(ys[i])
    ensures FirstIndex(xs, p) == FirstIndex(ys, q)
  {
    match FirstIndex(xs, p)
    case None =>
      assert forall j :: 0 <= j < |ys| ==> !q(ys[j]) by {
        forall j | 0 <= j < |ys| ensures !q(ys[j]) {
          assert !p(xs[j]);
        }
      }
    case Some(i) =>
      assert q(ys[i]);
      assert forall j :: 0 <= j < i ==> !q(ys[j]) by {
        forall j | 0 <= j < i ensures !q(ys[j]) {
          assert !p(xs[j]);
        }
      }
  }

  /** Appending one element after a sequence with no match makes that element the first match. */
  lemma FirstIndexAppend<T>(xs: seq<T>, x: T, p: T -> bool)
    requires FirstIndex(xs, p).None?
    requires p(x)
    ensures FirstIndex(xs + [x], p) == Some(|xs|)
  {
    var ys := xs + [x];
    assert ys[|xs|] == x;
    assert forall j :: 0 <= j < |xs| ==> ys[j] == xs[j];
  }
}

=== FILE: text.dfy ===
/**
 * The .NET string primitives the core relies on: `char.IsWhiteSpace`,
 * `string.IsNullOrWhiteSpace`, `string.Trim()`, ordinal ignore-case
 * comparison and `string.Join`.
 */
module Text {
  import opened Optional

  /**
   * `char.IsWhiteSpace`: Unicode categories Zs, Zl and Zp plus U+0009..U+000D
   * and U+0085. No ASCII letter or digit is white space, while space, tab,
   * line feed and carriage return are.
   */
  function IsWhiteSpace(c: char): (b: bool)
    ensures b ==> !('0' <= c <= '9' || 'A' <= c <= 'Z' || 'a' <= c <= 'z')
    ensures c == ' ' || c == '\t' || c == '\n' || c == '\r' ==> b
    ensures c < '\U{0009}' ==> !b
  {
    || ('\U{0009}' <= c <= '\U{000D}')
    || c == ' '
    || c == '\U{0085}'
    || c == '\U{00A0}'
    || c == '\U{1680}'
    || ('\U{2000}' <= c <= '\U{200A}')
    || c == '\U{2028}'
    || c == '\U{2029}'
    || c == '\U{202F}'
    || c == '\U{205F}'
    || c == '\U{3000}'
  }

  predicate AllWhiteSpace(s: string) {
    forall i :: 0 <= i < |s| ==> IsWhiteSpace(s[i])
  }

  /** `string.IsNullOrWhiteSpace`: null, or nothing left once trimmed. */
  function IsNullOrWhiteSpace(s: Option<string>): (b: bool)
    ensures s.None? ==> b
    ensures s.Some? ==> (b <==> Trim(s.value) == [])
    ensures s == Some("") ==> b
  {
    match s
    case None => true
    case Some(v) =>
      TrimBlank(v);
      AllWhiteSpace(v)
  }

  /** Where the text starts once the white space from position `i` on is skipped. */
  function SkipLeading(s: string, i: nat): (k: nat)
    requires i <= |s|
    ensures i <= k <= |s|
    ensures forall j :: i <= j < k ==> IsWhiteSpace(s[j])
    ensures k == |s| || !IsWhiteSpace(s[k])
    decreases |s| - i
  {
    if i < |s| && IsWhiteSpace(s[i]) then SkipLeading(s, i + 1) else i
  }

  /** Where the text ends once the white space before `hi` (but not before `lo`) is dropped. */
  function SkipTrailing(s: string, lo: nat, hi: nat): (e: nat)
    requires lo <= hi <= |s|
    ensures lo <= e <= hi
    ensures forall j :: e <= j < hi ==> IsWhiteSpace(s[j])
    ensures e == lo || !IsWhiteSpace(s[e - 1])
    decreases hi
  {
    if lo < hi && IsWhiteSpace(s[hi - 1]) then SkipTrailing(s, lo, hi - 1) else hi
  }

  /**
   * `r` is `s` with the white space before position `k` and after
   * position `k + |r|` cut off and everything in between kept as it is.
   */
  predicate Strips(s: string, r: string, k: nat) {
    && k + |r| <= |s|
    && r == s[k..k + |r|]
    && (forall j :: 0 <= j < k ==> IsWhiteSpace(s[j]))
    && (forall j :: k + |r| <= j < |s| ==> IsWhiteSpace(s[j]))
  }

  /** `Trim()`: drops white space at both ends and keeps the middle as it is. */
  function Trim(s: string): (r: string)
    ensures r == [] || (!IsWhiteSpace(r[0]) && !IsWhiteSpace(r[|r| - 1]))
    ensures Strips(s, r, SkipLeading(s, 0))
  {
    var k := SkipLeading(s, 0);
    s[k..SkipTrailing(s, k, |s|)]
  }

  /** Trimming leaves nothing exactly when the string is blank. */
  lemma TrimBlank(s: string)
    ensures Trim(s) == [] <==> AllWhiteSpace(s)
  {
    var k := SkipLeading(s, 0);
    if Trim(s) != [] {
      assert s[k] == Trim(s)[0];
    }
  }

  /** Trimming twice is trimming once. */
  lemma TrimIdempotent(s: string)
    ensures Trim(Trim(s)) == Trim(s)
  {
    var r := Trim(s);
    assert SkipLeading(r, 0) == 0;
    assert SkipTrailing(r, 0, |r|) == |r|;
  }

  /** Trimming never turns a name with visible characters into a blank one, nor the reverse. */
  lemma TrimKeepsBlankness(s: string)
    ensures AllWhiteSpace(Trim(s)) <==> AllWhiteSpace(s)
  {
    TrimBlank(s);
    var r := Trim(s);
    if r != [] {
      assert !IsWhiteSpace(r[0]);
    }
  }

  /**
   * The simple upper-case mapping used by ordinal ignore-case comparison,
   * for U+0000..U+00FF (Basic Latin and Latin-1 Supplement); other characters
   * map to themselves in this model.
   */
  function FoldUpper(c: char): (u: char)
    ensures 'a' <= c <= 'z' ==> u as int == c as int - 32
    ensures 'A' <= u <= 'Z' <==> ('A' <= c <= 'Z' || 'a' <= c <= 'z')
    ensures !('a' <= c <= 'z') && c < '\U{00B5}' ==> u == c
  {
    if 'a' <= c <= 'z' then (c as int - 32) as char
    else if '\U{00E0}' <= c <= '\U{00FE}' && c != '\U{00F7}' then (c as int - 32) as char
    else if c == '\U{00FF}' then '\U{0178}'
    else if c == '\U{00B5}' then '\U{039C}'
    else c
  }

  /**
   * `StringComparer.OrdinalIgnoreCase.Equals`: same length, same characters
   * after folding. Every string equals itself, and an ASCII capital matches
   * only itself or its lower-case letter.
   */
  function EqualsIgnoreCase(a: string, b: string): (r: bool)
    ensures a == b ==> r
    ensures r ==> |a| == |b|
    ensures r ==> forall i :: 0 <= i < |a| && 'A' <= a[i] <= 'Z' ==>
                    b[i] == a[i] || b[i] as int == a[i] as int + 32
  {
    |a| == |b| && forall i :: 0 <= i < |a| ==> FoldUpper(a[i]) == FoldUpper(b[i])
  }

  /** Ignore-case equality is an equivalence relation, so a case-insensitive set is well defined. */
  lemma EqualsIgnoreCaseEquivalence(a: string, b: string, c: string)
    ensures EqualsIgnoreCase(a, a)
    ensures EqualsIgnoreCase(a, b) ==> EqualsIgnoreCase(b, a)
    ensures EqualsIgnoreCase(a, b) && EqualsIgnoreCase(b, c) ==> EqualsIgnoreCase(a, c)
  {
  }

  /** A character-by-character check of ignore-case equality, as the comparer runs it. */
  function SameIgnoringCase(a: string, b: string): (r: bool)
    decreases |a|
  {
    if |a| == 0 || |b| == 0 then |a| == |b|
    else FoldUpper(a[0]) == FoldUpper(b[0]) && SameIgnoringCase(a[1..], b[1..])
  }

  /** The character-by-character check agrees with the definition of ignore-case equality. */
  lemma {:induction false} SameIgnoringCaseCorrect(a: string, b: string)
    ensures SameIgnoringCase(a, b) <==> EqualsIgnoreCase(a, b)
    decreases |a|
  {
    if |a| != 0 && |b| != 0 {
      SameIgnoringCaseCorrect(a[1..], b[1..]);
      if EqualsIgnoreCase(a[1..], b[1..]) && FoldUpper(a[0]) == FoldUpper(b[0]) {
        forall i | 0 <= i < |a| ensures FoldUpper(a[i]) == FoldUpper(b[i]) {
          if i > 0 {
            assert a[i] == a[1..][i - 1];
            assert b[i] == b[1..][i - 1];
          }
        }
      }
      if EqualsIgnoreCase(a, b) {
        assert FoldUpper(a[0]) == FoldUpper(b[0]);
        forall i | 0 <= i < |a| - 1 ensures FoldUpper(a[1..][i]) == FoldUpper(b[1..][i]) {
          assert a[1..][i] == a[i + 1];
          assert b[1..][i] == b[i + 1];
        }
      }
    }
  }

  /** The summed lengths of the parts. */
  function TotalLength(parts: seq<string>): nat
    decreases |parts|
  {
    if |parts| == 0 then 0 else |parts[0]| + TotalLength(parts[1..])
  }

  /** `string.Join(sep, parts)`: the parts in order with `sep` between neighbours. */
  function Join(sep: string, parts: seq<string>): (r: string)
    ensures |parts| == 0 ==> r == ""
    ensures |parts| == 1 ==> r == parts[0]
    ensures |parts| > 0 ==> |parts[0]| <= |r| && r[..|parts[0]|] == parts[0]
    ensures |parts| > 0 ==> |r| == TotalLength(parts) + (|parts| - 1) * |sep|
    decreases |parts|
  {
    if |parts| == 0 then ""
    else if |parts| == 1 then parts[0]
    else parts[0] + sep + Join(sep, parts[1..])
  }

  /** Appending a part appends the separator and that part, so every part appears in order. */
  lemma {:induction false} JoinAppend(sep: string, parts: seq<string>, p: string)
    requires |parts| > 0
    ensures Join(sep, parts + [p]) == Join(sep, parts) + sep + p
    decreases |parts|
  {
    if |parts| == 1 {
      assert (parts + [p])[1..] == [p];
    } else {
      assert (parts + [p])[1..] == parts[1..] + [p];
      JoinAppend(sep, parts[1..], p);
    }
  }
}
